=== FILE: README.md ===
# Booking-site logic: class list, submit guard, admin gates

A model, in Dafny, of the small pieces of sequential logic in a gymnastics
club's booking website (a Next.js/React application):

- **The class list of the booking form** (`uniqueByIdAndName`): drop every
  class entry whose `(id, name)` pair already appeared earlier in the list,
  then sort the survivors by name with `Array.prototype.sort`, which is
  stable since ECMAScript 2019. The collation of `localeCompare` is a
  parameter `nameLe`, where `nameLe(a, b)` means `a.localeCompare(b) <= 0`,
  required to be a total preorder (a consistent comparator; for any other
  comparator ECMAScript leaves the order implementation-defined).
  Modules `StableSort` (`stable_sort.dfy`) and `ClassList` (`class_list.dfy`).
- **The booking form's submit guard** (`onSubmit`) as a state machine over
  `(submittedForm, alreadyBooked)`: events are a submission (carrying the
  form values and the answer of the duplicate-check request) and the
  opening/closing of the "Booking already exists" dialog; each step reports
  the requests the form sends. Also the choice between "Loading students…",
  the "Register a student" prompt and the form. Module `BookingForm`
  (`booking_form.dfy`).
- **The admin routes** `GET /api/admin/classes` and
  `GET /api/check/checkIfUserIsAdmin` as pure decisions from the HTTP method
  and what the authentication provider and database answer (or that they
  threw) to a status, a JSON body and the list of queries issued. Module
  `AdminApi` (`admin_api.dfy`).

`Basics` (`basics.dfy`) holds `Option` and `Attempt` (a call that returns
or throws).

`uniqueByIdAndName` feeds the booking form's class picker
(`components/booking/NewBookingForm.tsx`, lines 166-167). The form sends the
duplicate-check request and, only after its answer, the store request; the
store route itself is not part of this model. The two 401 bodies of the
classes route are spelt differently in the code ("Unauthorized" without a
caller id, "Unauthorised" for a non-admin) and the model keeps both
spellings.

`SubmitRace` (`submit_race.dfy`) splits `onSubmit` at its `await`: a press
sends the duplicate check, and the rest of the handler runs when the answer
arrives. With it the model exhibits the double booking described under
"## Findings", and proves the at-most-one property for a guard that also
refuses a press while a check is outstanding.

## Model

| member | source | states |
|---|---|---|
| `ClassList.UniqueByIdAndName` | components/booking/NewBookingForm.tsx:63-79 | No two output entries share `(id, name)`; the output has exactly the keys of the input; every output entry is the first input entry with its key; the output is no longer than the input; and it is a sorted, stable sort by name of the entries that survive the filter |
| `ClassList.Dedupe` | components/booking/NewBookingForm.tsx:66-74 | The filter step never returns more entries than it is given |
| `ClassList.DedupeInOrder` | components/booking/NewBookingForm.tsx:66-74 | Survivors keep their input order: of two survivors, the earlier one's pair first occurs earlier in the input |
| `ClassList.DedupeKeys` | components/booking/NewBookingForm.tsx:66-74 | The filter step keeps a key exactly when the input has it: no key is lost, none is invented |
| `ClassList.DedupeDistinct` | components/booking/NewBookingForm.tsx:66-74 | After the filter step no two entries have equal `id` and equal `name` |
| `ClassList.DedupeKeepsFirst` | components/booking/NewBookingForm.tsx:68-73 | Each entry that survives the filter is the first entry of the input with its `(id, name)`, because an entry is dropped only when an earlier one has its pair |
| `ClassList.DedupeOfDistinct` | components/booking/NewBookingForm.tsx:66-74 | A list without repeated pairs passes the filter unchanged |
| `ClassList.FirstIndex` | components/booking/NewBookingForm.tsx:68-73 | The index it returns holds the key and no earlier index does |
| `ClassList.FirstIndexUnique` | components/booking/NewBookingForm.tsx:68-73 | Any index holding the key with no earlier index holding it is the first index |
| `ClassList.SortDistinct` | components/booking/NewBookingForm.tsx:76 | Sorting keeps a list free of repeated `(id, name)` pairs |
| `ClassList.ByNamePreorder` | components/booking/NewBookingForm.tsx:76 | Comparing entries by `name` under a total preorder on names is a total preorder on entries |
| `ClassList.UniqueByIdAndNameIdempotent` | components/booking/NewBookingForm.tsx:63-79 | Applying the function to its own output returns that output |
| `ClassList.UniqueByIdAndNameExample` | components/booking/NewBookingForm.tsx:63-79 | `[{2,B}, {1,A,Monday}, {1,A,Tuesday}]` becomes `[{1,A,Monday}, {2,B}]` under every collation that ranks A before B |
| `StableSort.Insert` | components/booking/NewBookingForm.tsx:76 | Inserting adds exactly the one element: the result is a permutation of the input plus it |
| `StableSort.Sort` | components/booking/NewBookingForm.tsx:76 | The sort returns a permutation of its input |
| `StableSort.InsertSorted` | components/booking/NewBookingForm.tsx:76 | Inserting into a sorted sequence keeps it sorted |
| `StableSort.InsertStable` | components/booking/NewBookingForm.tsx:76 | An inserted element lands behind every element it ties with |
| `StableSort.SortIsStableSort` | components/booking/NewBookingForm.tsx:76 | The result is sorted and keeps every class of tied elements in input order |
| `StableSort.SortedByRankUnique` | components/booking/NewBookingForm.tsx:76 | Two sorted sequences with the same tied elements in the same order are equal |
| `StableSort.StableSortIsUnique` | components/booking/NewBookingForm.tsx:76 | A sequence is a stable sort of the input if and only if it is what `Sort` returns, so the order of a stable sort is fully determined |
| `StableSort.SortOfSorted` | components/booking/NewBookingForm.tsx:76 | Sorting a sorted sequence returns it unchanged |
| `BookingForm.Validate` | components/booking/NewBookingForm.tsx:48-56 | A submission passes the schema exactly when class, student and user id are all present, and the booking carries those values |
| `BookingForm.OnSubmit` | components/booking/NewBookingForm.tsx:120-163 | A submitted form does nothing; otherwise it sends the duplicate check for the student and class, followed by the store of this booking when and only when the check answers ok with no booking, and nothing else; the booking is stored exactly when the check answers ok with no booking, and then `submittedForm` becomes true; a reported duplicate only opens the dialog; a failed check changes nothing; `alreadyBooked` becomes true only on a reported duplicate |
| `BookingForm.Next` | components/booking/NewBookingForm.tsx:313-327 | Opening or closing the dialog sets `alreadyBooked` and sends nothing; a submission that fails the schema changes nothing; one that passes it is handled by `OnSubmit` with the validated booking |
| `BookingForm.RunStoreAccounting` | components/booking/NewBookingForm.tsx:120-163 | For events applied one at a time (each submission handled to the end before the next): over any run, the number of store requests is one if `submittedForm` went from false to true and zero otherwise, and `submittedForm` never goes back |
| `BookingForm.AtMostOneStore` | components/booking/NewBookingForm.tsx:120-158 | For events applied one at a time (each submission handled to the end before the next), a form instance sends at most one store request whatever the server answers, and sends one exactly when it ends submitted |
| `BookingForm.SubmittedIsSilent` | components/booking/NewBookingForm.tsx:121-123 | For events applied one at a time: once `submittedForm` is true no event sends any request, even when the store request failed |
| `BookingForm.RunStoresFollowChecks` | components/booking/NewBookingForm.tsx:124-149 | For events applied one at a time: every store request directly follows the duplicate check for the same student and class |
| `BookingForm.Render` | components/booking/NewBookingForm.tsx:175-313 | "Loading" exactly when the student list is undefined, the register prompt exactly when it is empty, the form with that list otherwise; the duplicate dialog is open exactly when the list is loaded and `alreadyBooked` holds |
| `AdminApi.ClassesHandler` | pages/api/admin/classes.ts:10-37 | Non-GET: no response. No caller id: 401 "Unauthorized" and no query. No row or no admin flag: 401 "Unauthorised" and no classes query. The classes query is issued exactly past both checks; 200 exactly when it also returns, with the classes as returned; 500 "Error checking for classes" exactly when some step threw |
| `AdminApi.CheckIfUserIsAdmin` | pages/api/check/checkIfUserIsAdmin.ts:8-22 | Non-GET: no response. A lookup that returns gives 200 with `isAdmin` true iff a row exists with the admin flag; a lookup that throws gives 500 "Error checking user" with no `isAdmin` |
| `AdminApi.UsersWhere` | pages/api/admin/classes.ts:18-22 | The raw users query answers exactly the table's rows whose `user_id` is the caller's id |
| `AdminApi.FindUser` | pages/api/check/checkIfUserIsAdmin.ts:12-16 | `findUnique` answers a row with the given id when one exists, and nothing exactly when the table has no such row |
| `AdminApi.UsersWhereIsFindUser` | pages/api/admin/classes.ts:18-24 | On a table keyed by `user_id`, the raw query answers at most one row, and it is the row `findUnique` finds, so `user[0]` is that row |
| `AdminApi.AdminGatesAgree` | pages/api/admin/classes.ts:18-28 | For the same users table and caller id, the classes route reaches the classes query exactly when checkIfUserIsAdmin answers `isAdmin: true` |
| `SubmitRace.PressSubmit` | components/booking/NewBookingForm.tsx:120-134 | A press on a submitted form, or one failing the schema, does nothing; otherwise it queues the validated booking and sends its duplicate check, and never stores or changes the form's flags; the guarded handler also ignores a press while a check is outstanding |
| `SubmitRace.AnswerCheck` | components/booking/NewBookingForm.tsx:136-162 | The resumed handler sends the store of the answered submission's own booking exactly when a check was outstanding and answered ok with no booking, and nothing otherwise, without looking at `submittedForm` again, and then sets it; a reported duplicate opens the dialog; a failed check changes neither flag |
| `SubmitRace.DoubleStoreAsWritten` | components/booking/NewBookingForm.tsx:120-157 | Two presses before the first answer, both answered "no booking yet", send exactly the requests check, check, store, store, both stores carrying the same booking |
| `SubmitRace.GuardedAccounting` | components/booking/NewBookingForm.tsx:120-163 | With the guard, over any interleaving of presses and answers, the number of store requests is one if `submittedForm` went from false to true and zero otherwise, and `submittedForm` never goes back |
| `SubmitRace.GuardedSubmittedIsSilent` | components/booking/NewBookingForm.tsx:121-123 | With the guard, once `submittedForm` is true no press, answer or dialog event sends any request |
| `SubmitRace.GuardedStoresFollowChecks` | components/booking/NewBookingForm.tsx:124-149 | With the guard, counting the check still outstanding at the start, every store request directly follows the duplicate check for the same student and class |
| `SubmitRace.GuardedRunStoresFollowChecks` | components/booking/NewBookingForm.tsx:124-149 | From a fresh form with the guard, every store request directly follows the duplicate check for the same student and class, however presses and answers interleave |
| `SubmitRace.GuardedAtMostOneStore` | components/booking/NewBookingForm.tsx:120-157 | With the guard that refuses a press while a check is outstanding, at most one store request goes out however presses and answers interleave, and one exactly when the form ends submitted |

## Left out

- Rendering, styling, widgets and navigation: the JSX of the booking form, the timetable, calendar, students, index and new-booking pages, and `router.push` after a stored booking (it changes no form state).
- Network plumbing: the fetch of the user's students (the model takes its outcome as the `Option<seq<Student>>` given to `Render`), the store request's answer (it changes no form state), and the remote timetable fetch.
- Authentication: `getAuth` and the Clerk/Firebase sign-in are inputs (`Attempt<Option<string>>`, the caller id or a throw).
- Database queries: each query's answer is an input (`Attempt<seq<User>>`, `Attempt<Option<User>>`, `Attempt<seq<ClassRecord>>`); the table schemas are not part of this model, so the `admin` column is a plain boolean and class rows are opaque.
- Locale collation: `localeCompare` is the parameter `nameLe`, assumed to be a total preorder; date formatting is not modelled.
- Concurrency across form instances: two browser tabs, or two clients, can both pass the server's duplicate check before either booking is stored; the model has one form instance. Within one instance the window is the whole round trip of the duplicate check, which `SubmitRace` models (see "## Findings"); `BookingForm` applies each submission atomically.
- BookingForm.RunStoreAccounting: holds only for submissions handled one at a time; in the code as written two presses before the first answer send two stores for one change of `submittedForm` (`SubmitRace.DoubleStoreAsWritten`); `SubmitRace.GuardedAccounting` proves it for the guarded handler.
- BookingForm.SubmittedIsSilent: holds only for submissions handled one at a time; in the code as written a check outstanding when `submittedForm` becomes true still sends its store when it answers (`SubmitRace.DoubleStoreAsWritten`); `SubmitRace.GuardedSubmittedIsSilent` proves it for the guarded handler.
- BookingForm.RunStoresFollowChecks: holds only for submissions handled one at a time; in the code as written the second store of `SubmitRace.DoubleStoreAsWritten` follows the first store, not a check; `SubmitRace.GuardedRunStoresFollowChecks` proves it for the guarded handler.
- BookingForm.AtMostOneStore: holds only for submissions handled one at a time, because the code as written lets a press that arrives while a check is outstanding through (see "## Findings").
- The order in which outstanding duplicate checks answer: `SubmitRace` answers them oldest first.
- The JSON answer of the duplicate check is reduced to a boolean `hasBooking`, read for its JavaScript truthiness.
- The end-to-end browser tests are navigation only and are not modelled.

## Findings

| source | as written | input that shows it | evidently intended | confidence | as-written member | corrected member |
|---|---|---|---|---|---|---|
| components/booking/NewBookingForm.tsx:120-157 | `onSubmit` checks `submittedForm` when Submit is pressed but sets it only after the awaited duplicate check answers, so a press while a check is outstanding passes the guard | Press, Press, then both checks answer ok with `hasBooking: false`: two store requests for the same student and class from one form | at most one store request per form instance: refuse a press while a check is outstanding | not executed; proved on the model | `SubmitRace.DoubleStoreAsWritten` | `SubmitRace.GuardedAtMostOneStore` |

=== FILE: admin_api.dfy ===
/** The two admin API routes: `GET /api/admin/classes`, which lists every
    class to an authenticated administrator, and
    `GET /api/check/checkIfUserIsAdmin`, which reports whether a user is one.
    The authentication provider and the database are outside the model: what
    they return, or that they threw, is an input of each handler, and each
    handler reports which queries it issued. */
module AdminApi {
  import opened Basics

  /** A row of the users table. */
  datatype User = User(userId: string, admin: bool)

  /** A row of the Class table, passed through unread. */
  datatype ClassRecord = ClassRecord(columns: map<string, string>)

  /** The JSON body of a response. */
  datatype Body =
    | ErrorMessage(error: string)
    | Classes(classes: seq<ClassRecord>)
    | AdminFlag(isAdmin: bool)

  /** A handler that does not call `res` leaves the request unanswered. */
  datatype Response = NoResponse | Json(status: int, body: Body)

  datatype Query =
    | SelectUserRows(userId: string)        // raw SQL on "users" by user_id
    | SelectAllClasses                      // raw SQL on "Class"
    | FindUniqueUser(param: Option<string>)  // users.findUnique by the query parameter

  datatype Handled = Handled(response: Response, queries: seq<Query>)

  const ClassesError := "Error checking for classes"
  const UserError := "Error checking user"

  /** JavaScript truthiness of a possibly missing string: the empty string is falsy. */
  predicate Truthy(s: Option<string>) {
    s.Some? && s.value != ""
  }

  /** The caller passes the authentication step of the classes route. */
  predicate Authenticated(auth: Attempt<Option<string>>) {
    auth.Returned? && Truthy(auth.value)
  }

  /** The first user row exists and carries the admin flag. */
  predicate AdminRow(rows: seq<User>) {
    |rows| > 0 && rows[0].admin
  }

  /** `GET /api/admin/classes`. `auth` is what `getAuth` gives for the
      request, `userRows` what the users query answers, `classes` what the
      Class query answers; each is consulted only if the handler gets there. */
  function ClassesHandler(httpMethod: string, auth: Attempt<Option<string>>, userRows: Attempt<seq<User>>,
                          classes: Attempt<seq<ClassRecord>>): (r: Handled)
    // only GET is answered
    ensures httpMethod != "GET" ==> r == Handled(NoResponse, [])
    ensures httpMethod == "GET" ==> r.response.Json? && r.response.status in {200, 401, 500}
    // no caller id: 401 before any query
    ensures httpMethod == "GET" && auth.Returned? && !Truthy(auth.value) ==>
              r == Handled(Json(401, ErrorMessage("Unauthorized")), [])
    // the users query is issued for the authenticated caller only
    ensures forall q :: q in r.queries && q.SelectUserRows? ==>
              Authenticated(auth) && q.userId == auth.value.value
    // no row, or a row without the flag: 401 and no classes query
    ensures httpMethod == "GET" && Authenticated(auth) && userRows.Returned? && !AdminRow(userRows.value) ==>
              r == Handled(Json(401, ErrorMessage("Unauthorised")), [SelectUserRows(auth.value.value)])
    // the classes query is reached only past both checks
    ensures SelectAllClasses in r.queries <==>
              httpMethod == "GET" && Authenticated(auth) && userRows.Returned? && AdminRow(userRows.value)
    // an administrator gets the classes exactly as the store returned them
    ensures r.response.Json? && r.response.status == 200 <==>
              httpMethod == "GET" && Authenticated(auth) && userRows.Returned? && AdminRow(userRows.value) && classes.Returned?
    ensures r.response.Json? && r.response.status == 200 ==> r.response.body == Classes(classes.value)
    // anything that throws ends in 500
    ensures r.response.Json? && r.response.status == 500 <==>
              httpMethod == "GET"
              && (auth.Threw?
                  || (Authenticated(auth) && userRows.Threw?)
                  || (Authenticated(auth) && userRows.Returned? && AdminRow(userRows.value) && classes.Threw?))
    ensures r.response.Json? && r.response.status == 500 ==> r.response.body == ErrorMessage(ClassesError)
  {
    if httpMethod != "GET" then Handled(NoResponse, [])
    else
      match auth
      case Threw => Handled(Json(500, ErrorMessage(ClassesError)), [])
      case Returned(userId) =>
        if !Truthy(userId) then Handled(Json(401, ErrorMessage("Unauthorized")), [])
        else
          var lookup := SelectUserRows(userId.value);
          match userRows
          case Threw => Handled(Json(500, ErrorMessage(ClassesError)), [lookup])
          case Returned(rows) =>
            if !AdminRow(rows) then Handled(Json(401, ErrorMessage("Unauthorised")), [lookup])
            else
              match classes
              case Threw => Handled(Json(500, ErrorMessage(ClassesError)), [lookup, SelectAllClasses])
              case Returned(list) => Handled(Json(200, Classes(list)), [lookup, SelectAllClasses])
  }

  /** `GET /api/check/checkIfUserIsAdmin?user_id=…`. `userIdParam` is the
      query parameter and `lookup` what `findUnique` answers for it. */
  function CheckIfUserIsAdmin(httpMethod: string, userIdParam: Option<string>, lookup: Attempt<Option<User>>): (r: Handled)
    ensures httpMethod != "GET" ==> r == Handled(NoResponse, [])
    ensures httpMethod == "GET" ==> r.queries == [FindUniqueUser(userIdParam)]
    // a lookup that returns always gives 200, with isAdmin true iff there is an admin row
    ensures httpMethod == "GET" && lookup.Returned? ==>
              r.response == Json(200, AdminFlag(lookup.value.Some? && lookup.value.value.admin))
    // a lookup that throws gives 500 and no isAdmin field
    ensures httpMethod == "GET" && lookup.Threw? ==> r.response == Json(500, ErrorMessage(UserError))
  {
    if httpMethod != "GET" then Handled(NoResponse, [])
    else
      var q := [FindUniqueUser(userIdParam)];
      match lookup
      case Threw => Handled(Json(500, ErrorMessage(UserError)), q)
      case Returned(user) => Handled(Json(200, AdminFlag(user.Some? && user.value.admin)), q)
  }

  /** The rows of the users table whose `user_id` is `id`, in table order:
      what the raw `SELECT * FROM "users" WHERE "user_id" = id` returns. */
  function UsersWhere(table: seq<User>, id: string): (rows: seq<User>)
    ensures forall u :: u in rows <==> u in table && u.userId == id
  {
    if |table| == 0 then []
    else (if table[0].userId == id then [table[0]] else []) + UsersWhere(table[1..], id)
  }

  /** What `users.findUnique` returns for `id`: the first row with that id. */
  function FindUser(table: seq<User>, id: string): (r: Option<User>)
    ensures r.Some? ==> r.value in table && r.value.userId == id
    ensures r.None? ==> forall u :: u in table ==> u.userId != id
  {
    if |table| == 0 then None
    else if table[0].userId == id then Some(table[0])
    else FindUser(table[1..], id)
  }

  /** `user_id` is the key of the users table. */
  ghost predicate UniqueIds(table: seq<User>) {
    forall i, j :: 0 <= i < j < |table| ==> table[i].userId != table[j].userId
  }

  lemma {:induction false} NoRowsForAbsentId(table: seq<User>, id: string)
    requires forall u :: u in table ==> u.userId != id
    ensures UsersWhere(table, id) == []
    decreases |table|
  {
    if |table| > 0 {
      assert table[0] in table;
      NoRowsForAbsentId(table[1..], id);
    }
  }

  /** On a table keyed by user_id the raw query answers at most one row, and
      it is the row `findUnique` finds. */
  lemma {:induction false} UsersWhereIsFindUser(table: seq<User>, id: string)
    requires UniqueIds(table)
    ensures UsersWhere(table, id) == if FindUser(table, id).Some? then [FindUser(table, id).value] else []
    decreases |table|
  {
    if |table| > 0 {
      var rest := table[1..];
      assert UniqueIds(rest) by {
        forall i, j | 0 <= i < j < |rest|
          ensures rest[i].userId != rest[j].userId
        {
          assert rest[i] == table[i + 1] && rest[j] == table[j + 1];
        }
      }
      if table[0].userId == id {
        // no later row has the same id, so the rest of the query is empty
        forall u | u in rest
          ensures u.userId != id
        {
          var k :| 0 <= k < |rest| && rest[k] == u;
          assert table[k + 1] == u;
        }
        NoRowsForAbsentId(rest, id);
      } else {
        UsersWhereIsFindUser(rest, id);
      }
    }
  }

  /** The two routes agree: for the same users table and caller id, the
      classes route lets the caller through to the classes query exactly when
      checkIfUserIsAdmin reports `isAdmin: true`. */
  lemma AdminGatesAgree(table: seq<User>, userId: string, classes: Attempt<seq<ClassRecord>>)
    requires UniqueIds(table)
    requires userId != ""
    ensures
      var listed := ClassesHandler("GET", Returned(Some(userId)), Returned(UsersWhere(table, userId)), classes);
      var checked := CheckIfUserIsAdmin("GET", Some(userId), Returned(FindUser(table, userId)));
      (SelectAllClasses in listed.queries) <==> checked.response == Json(200, AdminFlag(true))
  {
    UsersWhereIsFindUser(table, userId);
  }
}

=== FILE: basics.dfy ===
/** Small failure-carrying wrappers shared by the model. */
module Basics {

  /** A value that may be absent: JavaScript's `undefined`, a missing row. */
  datatype Option<+T> = None | Some(value: T)

  /** The outcome of a call into code outside the model (a database query,
      the authentication provider) that either returns or throws. */
  datatype Attempt<+T> = Threw | Returned(value: T)
}

=== FILE: booking_form.dfy ===
/** The booking form's submit guard and its choice of what to show.

    The form keeps two flags: `submittedForm`, set once a store request has
    gone out, and `alreadyBooked`, which opens the "Booking already exists"
    dialog. A submission first asks the server whether the student already
    has the class, and only on a definite "no" sends the booking to be
    stored. Network answers are inputs of the events below. */
module BookingForm {
  import opened Basics

  /** The form's fields when the user presses Submit; a field never set is absent. */
  datatype FormValues = FormValues(selectedClass: Option<string>, selectedStudent: Option<string>, userId: Option<string>)

  /** A submission that passed the form schema. */
  datatype Booking = Booking(selectedClass: string, selectedStudent: string, userId: string)

  /** The form schema requires all three fields to be strings; any string,
      the empty one included, passes. */
  function Validate(v: FormValues): (r: Option<Booking>)
    ensures r.Some? <==> v.selectedClass.Some? && v.selectedStudent.Some? && v.userId.Some?
    ensures r.Some? ==>
      (Some(r.value.selectedClass) == v.selectedClass
       && Some(r.value.selectedStudent) == v.selectedStudent
       && Some(r.value.userId) == v.userId)
  {
    match (v.selectedClass, v.selectedStudent, v.userId)
    case (Some(c), Some(s), Some(u)) => Some(Booking(c, s, u))
    case _ => None
  }

  /** The answer to the duplicate-check request: a non-ok response (or a
      failed fetch), or an ok response carrying `hasBooking`. */
  datatype CheckOutcome = CheckNotOk | CheckOk(hasBooking: bool)

  /** The requests the form sends to the server. */
  datatype Request =
    | CheckDuplicate(studentId: string, classId: string)
    | StoreBooking(booking: Booking)

  datatype FormState = FormState(submittedForm: bool, alreadyBooked: bool)

  const Initial := FormState(false, false)

  /** What the user or the server does to a mounted form: press Submit (the
      duplicate check then answers `check`), or open/close the dialog. */
  datatype Event =
    | Submit(values: FormValues, check: CheckOutcome)
    | SetDialogOpen(open: bool)

  /** A state together with the requests sent while reaching it. */
  datatype Step = Step(state: FormState, requests: seq<Request>)

  function StoreCount(rs: seq<Request>): (n: nat)
    ensures n <= |rs|
  {
    if |rs| == 0 then 0
    else StoreCount(rs[..|rs| - 1]) + (if rs[|rs| - 1].StoreBooking? then 1 else 0)
  }

  /** `onSubmit` for a submission that passed the schema. */
  function OnSubmit(st: FormState, data: Booking, check: CheckOutcome): (r: Step)
    // a form that already sent its booking does nothing at all
    ensures st.submittedForm ==> r == Step(st, [])
    // otherwise the duplicate check for this student and class goes out first
    ensures !st.submittedForm ==>
              r.requests == [CheckDuplicate(data.selectedStudent, data.selectedClass)]
                            + (if check == CheckOk(false) then [StoreBooking(data)] else [])
    // the booking is stored exactly when the check said "no booking yet"
    ensures StoreCount(r.requests) == (if !st.submittedForm && check == CheckOk(false) then 1 else 0)
    ensures forall q :: q in r.requests && q.StoreBooking? ==> q.booking == data
    ensures r.state.submittedForm <==> st.submittedForm || check == CheckOk(false)
    ensures r.state.alreadyBooked <==> st.alreadyBooked || (!st.submittedForm && check == CheckOk(true))
    // a reported duplicate only opens the dialog
    ensures !st.submittedForm && check == CheckOk(true) ==> r.state == st.(alreadyBooked := true)
    // a failed check changes nothing
    ensures check == CheckNotOk ==> r.state == st
  {
    if st.submittedForm then Step(st, [])
    else
      var ask := CheckDuplicate(data.selectedStudent, data.selectedClass);
      match check
      case CheckNotOk => Step(st, [ask])
      case CheckOk(hasBooking) =>
        if hasBooking then Step(st.(alreadyBooked := true), [ask])
        else Step(st.(submittedForm := true), [ask, StoreBooking(data)])
  }

  /** One event. A submission that fails the schema never reaches `onSubmit`. */
  function Next(st: FormState, e: Event): (r: Step)
    ensures e.SetDialogOpen? ==> r == Step(st.(alreadyBooked := e.open), [])
    ensures e.Submit? && Validate(e.values).None? ==> r == Step(st, [])
    ensures e.Submit? && Validate(e.values).Some? ==> r == OnSubmit(st, Validate(e.values).value, e.check)
  {
    match e
    case Submit(values, check) =>
      (match Validate(values)
       case Some(data) => OnSubmit(st, data, check)
       case None => Step(st, []))
    case SetDialogOpen(open) => Step(st.(alreadyBooked := open), [])
  }

  /** A sequence of events applied to one form instance, in order. */
  function Run(st: FormState, es: seq<Event>): Step
    decreases |es|
  {
    if |es| == 0 then Step(st, [])
    else
      var first := Next(st, es[0]);
      var rest := Run(first.state, es[1..]);
      Step(rest.state, first.requests + rest.requests)
  }

  // ---------------------------------------------------------------------
  // Properties of whole runs

  lemma {:induction false} StoreCountAppend(a: seq<Request>, b: seq<Request>)
    ensures StoreCount(a + b) == StoreCount(a) + StoreCount(b)
    decreases |b|
  {
    if |b| == 0 {
      assert a + b == a;
    } else {
      assert (a + b)[..|a + b| - 1] == a + b[..|b| - 1];
      StoreCountAppend(a, b[..|b| - 1]);
    }
  }

  lemma NextStores(st: FormState, e: Event)
    ensures var r := Next(st, e);
            StoreCount(r.requests) == (if !st.submittedForm && r.state.submittedForm then 1 else 0)
            && (st.submittedForm ==> r.state.submittedForm)
  {
  }

  /** For events applied one at a time: every store request of a run is
      accounted for by `submittedForm` turning from false to true, which
      happens at most once. */
  lemma {:induction false} RunStoreAccounting(st: FormState, es: seq<Event>)
    ensures var r := Run(st, es);
            StoreCount(r.requests) == (if !st.submittedForm && r.state.submittedForm then 1 else 0)
            && (st.submittedForm ==> r.state.submittedForm)
    decreases |es|
  {
    if |es| > 0 {
      var first := Next(st, es[0]);
      NextStores(st, es[0]);
      RunStoreAccounting(first.state, es[1..]);
      StoreCountAppend(first.requests, Run(first.state, es[1..]).requests);
    }
  }

  /** For events applied one at a time, each submission handled to the end
      before the next begins, a form instance sends at most one store
      request, whatever the server answers. */
  lemma AtMostOneStore(es: seq<Event>)
    ensures StoreCount(Run(Initial, es).requests) <= 1
    ensures StoreCount(Run(Initial, es).requests) == 1 <==> Run(Initial, es).state.submittedForm
  {
    RunStoreAccounting(Initial, es);
  }

  /** For events applied one at a time: once the booking has been sent, no
      event makes the form send anything. */
  lemma {:induction false} SubmittedIsSilent(st: FormState, es: seq<Event>)
    requires st.submittedForm
    ensures Run(st, es).requests == []
    ensures Run(st, es).state.submittedForm
    decreases |es|
  {
    if |es| > 0 {
      SubmittedIsSilent(Next(st, es[0]).state, es[1..]);
    }
  }

  /** Every store request directly follows the duplicate check for the same
      student and class. */
  ghost predicate StoresFollowChecks(rs: seq<Request>) {
    forall i :: 0 <= i < |rs| && rs[i].StoreBooking? ==>
      i > 0 && rs[i - 1] == CheckDuplicate(rs[i].booking.selectedStudent, rs[i].booking.selectedClass)
  }

  lemma NextStoresFollowChecks(st: FormState, e: Event)
    ensures StoresFollowChecks(Next(st, e).requests)
  {
  }

  /** A store request at the head of `b` would follow nothing, so joining two
      request lists keeps the property. */
  lemma StoresFollowChecksAppend(a: seq<Request>, b: seq<Request>)
    requires StoresFollowChecks(a) && StoresFollowChecks(b)
    ensures StoresFollowChecks(a + b)
  {
    var rs: seq<Request> := a + b;
    forall i | 0 <= i < |rs| && rs[i].StoreBooking?
      ensures i > 0 && rs[i - 1] == CheckDuplicate(rs[i].booking.selectedStudent, rs[i].booking.selectedClass)
    {
      if i >= |a| {
        assert rs[i] == b[i - |a|];
      } else {
        assert rs[i] == a[i];
      }
    }
  }

  /** For events applied one at a time: every store request directly follows
      the duplicate check for the same student and class. */
  lemma {:induction false} RunStoresFollowChecks(st: FormState, es: seq<Event>)
    ensures StoresFollowChecks(Run(st, es).requests)
    decreases |es|
  {
    if |es| > 0 {
      var first := Next(st, es[0]);
      NextStoresFollowChecks(st, es[0]);
      RunStoresFollowChecks(first.state, es[1..]);
      StoresFollowChecksAppend(first.requests, Run(first.state, es[1..]).requests);
    }
  }

  // ---------------------------------------------------------------------
  // What the form shows

  datatype Student = Student(studentId: int, firstName: string, lastName: string)

  datatype View = LoadingStudents | RegisterPrompt | BookingFields(students: seq<Student>)

  /** The view, and whether the "Booking already exists" dialog is open. */
  datatype Screen = Screen(view: View, dialogOpen: bool)

  /** `students` is None until the student list has been fetched. The
      dialog belongs to the loaded page only, so it cannot open while loading. */
  function Render(students: Option<seq<Student>>, st: FormState): (r: Screen)
    ensures r.view.LoadingStudents? <==> students.None?
    ensures r.view.RegisterPrompt? <==> students == Some([])
    ensures r.view.BookingFields? <==> students.Some? && |students.value| > 0
    ensures r.view.BookingFields? ==> r.view.students == students.value
    ensures r.dialogOpen <==> students.Some? && st.alreadyBooked
  {
    match students
    case None => Screen(LoadingStudents, false)
    case Some(list) =>
      Screen(if |list| == 0 then RegisterPrompt else BookingFields(list), st.alreadyBooked)
  }
}

=== FILE: class_list.dfy ===
/** The class list shown by the booking form: `uniqueByIdAndName` drops every
    entry whose (id, name) pair already occurred earlier in the list, then
    sorts the survivors by name with a stable sort. */
module ClassList {
  import opened StableSort

  /** One class entry: its `id` and `name`, and the remaining fields of the
      JSON object, which the function carries along untouched. */
  datatype ClassEntry = ClassEntry(id: string, name: string, fields: map<string, string>)

  /** The pair two entries are compared on when duplicates are removed. */
  type Key = (string, string)

  function KeyOf(e: ClassEntry): Key {
    (e.id, e.name)
  }

  predicate HasKey(s: seq<ClassEntry>, k: Key) {
    exists j :: 0 <= j < |s| && KeyOf(s[j]) == k
  }

  ghost predicate DistinctKeys(s: seq<ClassEntry>) {
    forall i, j :: 0 <= i < j < |s| ==> KeyOf(s[i]) != KeyOf(s[j])
  }

  /** The index of the first entry of `s` with key `k`. */
  function FirstIndex(s: seq<ClassEntry>, k: Key): (i: nat)
    requires HasKey(s, k)
    ensures i < |s| && KeyOf(s[i]) == k
    ensures !HasKey(s[..i], k)
  {
    if KeyOf(s[0]) == k then 0
    else
      assert HasKey(s[1..], k) by {
        var j :| 0 <= j < |s| && KeyOf(s[j]) == k;
        assert s[1..][j - 1] == s[j];
      }
      var i := 1 + FirstIndex(s[1..], k);
      assert s[..i] == [s[0]] + s[1..][..i - 1];
      i
  }

  /** The `filter` step: the entry at index `i` survives exactly when no entry
      of `s[..i]` has the same key. */
  function Dedupe(s: seq<ClassEntry>): (r: seq<ClassEntry>)
    ensures |r| <= |s|
  {
    if |s| == 0 then []
    else
      var p, x := s[..|s| - 1], s[|s| - 1];
      Dedupe(p) + (if HasKey(p, KeyOf(x)) then [] else [x])
  }

  /** `a.name.localeCompare(b.name) <= 0`, lifted from names to entries. */
  function ByName(nameLe: (string, string) -> bool): (le: (ClassEntry, ClassEntry) -> bool)
    ensures forall a, b :: le(a, b) == nameLe(a.name, b.name)
  {
    (a: ClassEntry, b: ClassEntry) => nameLe(a.name, b.name)
  }

  lemma ByNamePreorder(nameLe: (string, string) -> bool)
    requires TotalPreorder(nameLe)
    ensures TotalPreorder(ByName(nameLe))
  {
    var le := ByName(nameLe);
    forall x, y, z | le(x, y) && le(y, z)
      ensures le(x, z)
    {
      assert nameLe(x.name, y.name) && nameLe(y.name, z.name);
    }
    forall x, y
      ensures le(x, y) || le(y, x)
    {
      assert nameLe(x.name, y.name) || nameLe(y.name, x.name);
    }
  }

  // ---------------------------------------------------------------------
  // The filter step

  lemma HasKeyAppend(a: seq<ClassEntry>, b: seq<ClassEntry>, k: Key)
    ensures HasKey(a + b, k) <==> HasKey(a, k) || HasKey(b, k)
  {
    if HasKey(a + b, k) {
      var j :| 0 <= j < |a + b| && KeyOf((a + b)[j]) == k;
      if j >= |a| {
        assert b[j - |a|] == (a + b)[j];
      }
    }
    if HasKey(b, k) {
      var j :| 0 <= j < |b| && KeyOf(b[j]) == k;
      assert (a + b)[|a| + j] == b[j];
    }
    if HasKey(a, k) {
      var j :| 0 <= j < |a| && KeyOf(a[j]) == k;
      assert (a + b)[j] == a[j];
    }
  }

  /** Dropping later duplicates loses no key and invents none. */
  lemma {:induction false} DedupeKeys(s: seq<ClassEntry>, k: Key)
    ensures HasKey(Dedupe(s), k) <==> HasKey(s, k)
    decreases |s|
  {
    if |s| > 0 {
      var p, x := s[..|s| - 1], s[|s| - 1];
      DedupeKeys(p, k);
      DedupeKeys(p, KeyOf(x));
      HasKeyAppend(Dedupe(p), if HasKey(p, KeyOf(x)) then [] else [x], k);
      HasKeyAppend(p, [x], k);
      assert p + [x] == s;
    }
  }

  /** No two surviving entries share a key. */
  lemma {:induction false} DedupeDistinct(s: seq<ClassEntry>)
    ensures DistinctKeys(Dedupe(s))
    decreases |s|
  {
    if |s| > 0 {
      var p, x := s[..|s| - 1], s[|s| - 1];
      DedupeDistinct(p);
      DedupeKeys(p, KeyOf(x));
      var d := Dedupe(p);
      if !HasKey(p, KeyOf(x)) {
        forall i | 0 <= i < |d|
          ensures KeyOf(d[i]) != KeyOf(x)
        {
        }
      }
    }
  }

  /** Every surviving entry is the first entry of `s` with its key. */
  lemma {:induction false} DedupeKeepsFirst(s: seq<ClassEntry>, y: ClassEntry)
    requires y in Dedupe(s)
    ensures HasKey(s, KeyOf(y)) && y == s[FirstIndex(s, KeyOf(y))]
    decreases |s|
  {
    var p, x := s[..|s| - 1], s[|s| - 1];
    assert s == p + [x];
    var k := KeyOf(y);
    if y in Dedupe(p) {
      DedupeKeepsFirst(p, y);
      var i := FirstIndex(p, k);
      assert s[i] == p[i] && s[..i] == p[..i];
      FirstIndexUnique(s, k, i);
    } else {
      assert y == x && !HasKey(p, k);
      assert s[..|s| - 1] == p;
      FirstIndexUnique(s, k, |s| - 1);
    }
  }

  /** The first index with a key is the only index that satisfies
      `FirstIndex`'s postcondition. */
  lemma FirstIndexUnique(s: seq<ClassEntry>, k: Key, i: nat)
    requires i < |s| && KeyOf(s[i]) == k && !HasKey(s[..i], k)
    ensures HasKey(s, k) && FirstIndex(s, k) == i
  {
    assert HasKey(s, k);
  }

  /** Appending an entry does not move the first occurrence of a key that is
      already present. */
  lemma FirstIndexSnoc(p: seq<ClassEntry>, x: ClassEntry, k: Key)
    requires HasKey(p, k)
    ensures HasKey(p + [x], k) && FirstIndex(p + [x], k) == FirstIndex(p, k)
  {
    var f := FirstIndex(p, k);
    var s := p + [x];
    assert s[f] == p[f] && s[..f] == p[..f];
    FirstIndexUnique(s, k, f);
  }

  /** The survivors keep their input order: an earlier survivor's key first
      occurs in the input before a later survivor's key does. */
  lemma {:induction false} DedupeInOrder(s: seq<ClassEntry>, i: nat, j: nat)
    requires i < j < |Dedupe(s)|
    ensures HasKey(s, KeyOf(Dedupe(s)[i])) && HasKey(s, KeyOf(Dedupe(s)[j]))
    ensures FirstIndex(s, KeyOf(Dedupe(s)[i])) < FirstIndex(s, KeyOf(Dedupe(s)[j]))
    decreases |s|
  {
    var p, x := s[..|s| - 1], s[|s| - 1];
    assert s == p + [x];
    var d := Dedupe(p);
    var y, z := Dedupe(s)[i], Dedupe(s)[j];
    assert y == d[i];
    DedupeKeepsFirst(p, d[i]);
    FirstIndexSnoc(p, x, KeyOf(y));
    if j < |d| {
      assert z == d[j];
      DedupeInOrder(p, i, j);
      FirstIndexSnoc(p, x, KeyOf(z));
    } else {
      // z is x, kept because no entry of p has its key
      assert z == x && !HasKey(p, KeyOf(x));
      FirstIndexUnique(s, KeyOf(z), |s| - 1);
    }
  }

  /** The filter step leaves a list without repeated keys as it is. */
  lemma {:induction false} DedupeOfDistinct(s: seq<ClassEntry>)
    requires DistinctKeys(s)
    ensures Dedupe(s) == s
    decreases |s|
  {
    if |s| > 0 {
      var p, x := s[..|s| - 1], s[|s| - 1];
      DedupeOfDistinct(p);
      assert !HasKey(p, KeyOf(x));
      assert p + [x] == s;
    }
  }

  // ---------------------------------------------------------------------
  // The sort step

  lemma SameElementsSameKeys(a: seq<ClassEntry>, b: seq<ClassEntry>, k: Key)
    requires multiset(a) == multiset(b)
    ensures HasKey(a, k) <==> HasKey(b, k)
  {
    if HasKey(a, k) {
      var j :| 0 <= j < |a| && KeyOf(a[j]) == k;
      assert a[j] in multiset(b);
      var i :| 0 <= i < |b| && b[i] == a[j];
    }
    if HasKey(b, k) {
      var j :| 0 <= j < |b| && KeyOf(b[j]) == k;
      assert b[j] in multiset(a);
      var i :| 0 <= i < |a| && a[i] == b[j];
    }
  }

  lemma {:induction false} InsertDistinct(le: (ClassEntry, ClassEntry) -> bool, t: seq<ClassEntry>, x: ClassEntry)
    requires DistinctKeys(t) && !HasKey(t, KeyOf(x))
    ensures DistinctKeys(Insert(le, t, x))
    decreases |t|
  {
    if |t| > 0 && !le(t[|t| - 1], x) {
      var t', last := t[..|t| - 1], t[|t| - 1];
      InsertDistinct(le, t', x);
      var r' := Insert(le, t', x);
      SameElementsSameKeys(r', t' + [x], KeyOf(last));
      HasKeyAppend(t', [x], KeyOf(last));
    }
  }

  /** Sorting keeps a list free of repeated keys. */
  lemma {:induction false} SortDistinct(le: (ClassEntry, ClassEntry) -> bool, s: seq<ClassEntry>)
    requires DistinctKeys(s)
    ensures DistinctKeys(Sort(le, s))
    decreases |s|
  {
    if |s| > 0 {
      var p, x := s[..|s| - 1], s[|s| - 1];
      SortDistinct(le, p);
      SameElementsSameKeys(Sort(le, p), p, KeyOf(x));
      InsertDistinct(le, Sort(le, p), x);
    }
  }

  // ---------------------------------------------------------------------
  // uniqueByIdAndName

  /** The list the booking form offers: one entry per (id, name) pair, the
      first one in input order, sorted by name, entries with tied names in
      input order. `nameLe` is the collation `localeCompare` applies. */
  function UniqueByIdAndName(nameLe: (string, string) -> bool, s: seq<ClassEntry>): (r: seq<ClassEntry>)
    requires TotalPreorder(nameLe)
    ensures DistinctKeys(r)
    ensures forall k :: HasKey(r, k) <==> HasKey(s, k)
    ensures forall y :: y in r ==> HasKey(s, KeyOf(y)) && y == s[FirstIndex(s, KeyOf(y))]
    ensures |r| <= |s|
    ensures IsStableSortOf(ByName(nameLe), Dedupe(s), r)
  {
    var d := Dedupe(s);
    var r := Sort(ByName(nameLe), d);
    DedupeDistinct(s);
    SortDistinct(ByName(nameLe), d);
    ByNamePreorder(nameLe);
    SortIsStableSort(ByName(nameLe), d);
    assert forall k :: HasKey(r, k) <==> HasKey(s, k) by {
      forall k
        ensures HasKey(r, k) <==> HasKey(s, k)
      {
        SameElementsSameKeys(r, d, k);
        DedupeKeys(s, k);
      }
    }
    assert forall y :: y in r ==> HasKey(s, KeyOf(y)) && y == s[FirstIndex(s, KeyOf(y))] by {
      forall y | y in r
        ensures HasKey(s, KeyOf(y)) && y == s[FirstIndex(s, KeyOf(y))]
      {
        assert y in multiset(d);
        DedupeKeepsFirst(s, y);
      }
    }
    r
  }

  /** Applying the function to its own output changes nothing. */
  lemma UniqueByIdAndNameIdempotent(nameLe: (string, string) -> bool, s: seq<ClassEntry>)
    requires TotalPreorder(nameLe)
    ensures UniqueByIdAndName(nameLe, UniqueByIdAndName(nameLe, s)) == UniqueByIdAndName(nameLe, s)
  {
    var r := UniqueByIdAndName(nameLe, s);
    DedupeOfDistinct(r);
    SortOfSorted(ByName(nameLe), r);
  }

  /** Two copies of class A behind class B: the second A is dropped and A is
      moved in front, under any collation that ranks "A" before "B". */
  lemma UniqueByIdAndNameExample(nameLe: (string, string) -> bool)
    requires TotalPreorder(nameLe) && !nameLe("B", "A")
    ensures
      var b := ClassEntry("2", "B", map[]);
      var a1 := ClassEntry("1", "A", map["day" := "Monday"]);
      var a2 := ClassEntry("1", "A", map["day" := "Tuesday"]);
      UniqueByIdAndName(nameLe, [b, a1, a2]) == [a1, b]
  {
    var b := ClassEntry("2", "B", map[]);
    var a1 := ClassEntry("1", "A", map["day" := "Monday"]);
    var a2 := ClassEntry("1", "A", map["day" := "Tuesday"]);
    var s := [b, a1, a2];
    assert s[..2] == [b, a1] && [b, a1][..1] == [b] && [b][..0] == [];
    assert HasKey([b, a1], KeyOf(a2)) by { assert KeyOf([b, a1][1]) == KeyOf(a2); }
    assert !HasKey([b], KeyOf(a1));
    assert Dedupe([b]) == [b];
    assert Dedupe([b, a1]) == [b, a1];
    assert Dedupe(s) == [b, a1];
    var le := ByName(nameLe);
    assert Sort(le, [b]) == [b];
    assert Insert(le, [b], a1) == [a1, b];
  }
}

=== FILE: stable_sort.dfy ===
/** A stable sort by a comparator that behaves as a total preorder, as
    `Array.prototype.sort` promises since ECMAScript 2019 for a consistent
    comparator. `le(a, b)` stands for "the comparator does not place `b`
    strictly before `a`", i.e. `cmp(a, b) <= 0`. */
module StableSort {

  ghost predicate TotalPreorder<T(!new)>(le: (T, T) -> bool) {
    && (forall x, y :: le(x, y) || le(y, x))
    && (forall x, y, z :: le(x, y) && le(y, z) ==> le(x, z))
  }

  ghost predicate Sorted<T>(le: (T, T) -> bool, s: seq<T>) {
    forall i, j :: 0 <= i < j < |s| ==> le(s[i], s[j])
  }

  /** `x` and `y` compare equal: neither ranks strictly before the other. */
  predicate Tied<T>(le: (T, T) -> bool, x: T, y: T) {
    le(x, y) && le(y, x)
  }

  /** The elements of `s` that compare equal to `x`, in their order in `s`. */
  function SameRank<T>(le: (T, T) -> bool, s: seq<T>, x: T): (r: seq<T>)
    ensures |r| <= |s|
  {
    if |s| == 0 then []
    else SameRank(le, s[..|s| - 1], x) + (if Tied(le, s[|s| - 1], x) then [s[|s| - 1]] else [])
  }

  /** Places `x` directly behind the last element of `t` that does not rank
      above it, so that `x` follows every element it ties with. */
  function Insert<T>(le: (T, T) -> bool, t: seq<T>, x: T): (r: seq<T>)
    ensures multiset(r) == multiset(t) + multiset{x}
  {
    if |t| == 0 then [x]
    else if le(t[|t| - 1], x) then t + [x]
    else
      var last := t[|t| - 1];
      assert t == t[..|t| - 1] + [last];
      Insert(le, t[..|t| - 1], x) + [last]
  }

  /** Insertion sort, taking the elements of `s` in order. */
  function Sort<T>(le: (T, T) -> bool, s: seq<T>): (r: seq<T>)
    ensures multiset(r) == multiset(s)
  {
    if |s| == 0 then []
    else
      assert s == s[..|s| - 1] + [s[|s| - 1]];
      Insert(le, Sort(le, s[..|s| - 1]), s[|s| - 1])
  }

  /** What a stable sort of `s` must return: a sorted sequence that holds,
      for every element, the elements tied with it in the order `s` has them. */
  ghost predicate IsStableSortOf<T(!new)>(le: (T, T) -> bool, s: seq<T>, r: seq<T>) {
    && Sorted(le, r)
    && forall x :: SameRank(le, r, x) == SameRank(le, s, x)
  }

  lemma {:induction false} SameRankMember<T>(le: (T, T) -> bool, s: seq<T>, x: T, y: T)
    requires y in SameRank(le, s, x)
    ensures y in s && Tied(le, y, x)
    decreases |s|
  {
    var s' := s[..|s| - 1];
    if y in SameRank(le, s', x) {
      SameRankMember(le, s', x, y);
      assert s == s' + [s[|s| - 1]];
    }
  }

  lemma {:induction false} SameRankAppend<T>(le: (T, T) -> bool, a: seq<T>, b: seq<T>, x: T)
    ensures SameRank(le, a + b, x) == SameRank(le, a, x) + SameRank(le, b, x)
    decreases |b|
  {
    if |b| == 0 {
      assert a + b == a;
    } else {
      var b' := b[..|b| - 1];
      assert (a + b)[..|a + b| - 1] == a + b';
      SameRankAppend(le, a, b', x);
    }
  }

  lemma {:induction false} InsertSorted<T(!new)>(le: (T, T) -> bool, t: seq<T>, x: T)
    requires TotalPreorder(le)
    requires Sorted(le, t)
    ensures Sorted(le, Insert(le, t, x))
    decreases |t|
  {
    if |t| == 0 || le(t[|t| - 1], x) {
    } else {
      var t', last := t[..|t| - 1], t[|t| - 1];
      InsertSorted(le, t', x);
      var r' := Insert(le, t', x);
      forall y | y in r'
        ensures le(y, last)
      {
        assert y in multiset(r');
        if y != x {
          assert y in multiset(t');
          var i :| 0 <= i < |t'| && t'[i] == y;
          assert t[i] == y;
        }
      }
      var r := r' + [last];
      forall i, j | 0 <= i < j < |r|
        ensures le(r[i], r[j])
      {
        if j == |r| - 1 {
          assert r[i] in r';
        } else {
          assert r[i] == r'[i] && r[j] == r'[j];
        }
      }
    }
  }

  lemma SameRankSingleton<T>(le: (T, T) -> bool, x: T, k: T)
    ensures SameRank(le, [x], k) == if Tied(le, x, k) then [x] else []
  {
    assert [x][..0] == [];
  }

  lemma {:induction false} InsertStable<T(!new)>(le: (T, T) -> bool, t: seq<T>, x: T, k: T)
    requires TotalPreorder(le)
    ensures SameRank(le, Insert(le, t, x), k) == SameRank(le, t + [x], k)
    decreases |t|
  {
    if |t| == 0 {
      assert t + [x] == [x];
    } else if le(t[|t| - 1], x) {
    } else {
      var t', last := t[..|t| - 1], t[|t| - 1];
      assert t' + [last] == t;
      InsertStable(le, t', x, k);
      SameRankAppend(le, Insert(le, t', x), [last], k);
      SameRankAppend(le, t', [x], k);
      SameRankAppend(le, t', [last], k);
      SameRankAppend(le, t, [x], k);
      SameRankSingleton(le, x, k);
      SameRankSingleton(le, last, k);
      // `last` ranks strictly above `x`, so they cannot both tie with `k`
      assert !(Tied(le, last, k) && Tied(le, x, k));
    }
  }

  /** The sort returns a sorted permutation of its input that keeps tied
      elements in their input order. */
  lemma {:induction false} SortIsStableSort<T(!new)>(le: (T, T) -> bool, s: seq<T>)
    requires TotalPreorder(le)
    ensures IsStableSortOf(le, s, Sort(le, s))
    decreases |s|
  {
    if |s| > 0 {
      var p, y := s[..|s| - 1], s[|s| - 1];
      SortIsStableSort(le, p);
      InsertSorted(le, Sort(le, p), y);
      forall k
        ensures SameRank(le, Sort(le, s), k) == SameRank(le, s, k)
      {
        InsertStable(le, Sort(le, p), y, k);
        SameRankAppend(le, Sort(le, p), [y], k);
        SameRankAppend(le, p, [y], k);
        assert p + [y] == s;
      }
    }
  }

  /** Sorting an already sorted sequence leaves it as it is. */
  lemma {:induction false} SortOfSorted<T>(le: (T, T) -> bool, s: seq<T>)
    requires Sorted(le, s)
    ensures Sort(le, s) == s
    decreases |s|
  {
    if |s| > 0 {
      var p := s[..|s| - 1];
      SortOfSorted(le, p);
      assert p + [s[|s| - 1]] == s;
    }
  }

  lemma LastHasRank<T(!new)>(le: (T, T) -> bool, s: seq<T>)
    requires TotalPreorder(le)
    requires |s| > 0
    ensures SameRank(le, s, s[|s| - 1]) != []
  {
    var x := s[|s| - 1];
    assert le(x, x);
  }

  /** Two sorted sequences that agree on every class of tied elements are equal. */
  lemma {:induction false} SortedByRankUnique<T(!new)>(le: (T, T) -> bool, a: seq<T>, b: seq<T>)
    requires TotalPreorder(le)
    requires Sorted(le, a) && Sorted(le, b)
    requires forall x :: SameRank(le, a, x) == SameRank(le, b, x)
    ensures a == b
    decreases |a| + |b|
  {
    if |a| == 0 && |b| == 0 {
    } else if |a| == 0 {
      // b's last element has a non-empty class in b but an empty one in a
      LastHasRank(le, b);
      assert false;
    } else if |b| == 0 {
      LastHasRank(le, a);
      assert false;
    } else {
      var a', p := a[..|a| - 1], a[|a| - 1];
      var b', q := b[..|b| - 1], b[|b| - 1];
      assert le(p, p) && le(q, q);
      if !Tied(le, q, p) {
        // p's class is non-empty in b, so it has a member c before q, and p <= c <= q
        assert SameRank(le, b, p) == SameRank(le, b', p);
        var c := SameRank(le, b', p)[0];
        SameRankMember(le, b', p, c);
        var i :| 0 <= i < |b'| && b'[i] == c;
        assert le(c, q) by { assert b[i] == c; }
        // symmetrically q's class has a member c' in a' with q <= c' <= p
        assert SameRank(le, a, q) == SameRank(le, a', q);
        var c' := SameRank(le, a', q)[0];
        SameRankMember(le, a', q, c');
        assert false;
      }
      var sa, sb := SameRank(le, a, p), SameRank(le, b, p);
      assert sa == sb;
      assert sa[|sa| - 1] == p && sb[|sb| - 1] == q;
      assert p == q;
      forall x
        ensures SameRank(le, a', x) == SameRank(le, b', x)
      {
        var ra, rb := SameRank(le, a, x), SameRank(le, b, x);
        assert ra == rb;
        assert a[..|a| - 1] == a' && b[..|b| - 1] == b';
        if Tied(le, p, x) {
          assert ra == SameRank(le, a', x) + [p];
          assert rb == SameRank(le, b', x) + [p];
          assert ra[..|ra| - 1] == SameRank(le, a', x);
          assert rb[..|rb| - 1] == SameRank(le, b', x);
        } else {
          assert ra == SameRank(le, a', x);
          assert rb == SameRank(le, b', x);
        }
      }
      SortedByRankUnique(le, a', b');
      assert a == a' + [p] && b == b' + [q];
    }
  }

  /** A sequence is a stable sort of `s` exactly when it is what `Sort` returns. */
  lemma StableSortIsUnique<T(!new)>(le: (T, T) -> bool, s: seq<T>, r: seq<T>)
    requires TotalPreorder(le)
    ensures IsStableSortOf(le, s, r) <==> r == Sort(le, s)
  {
    SortIsStableSort(le, s);
    if IsStableSortOf(le, s, r) {
      SortedByRankUnique(le, r, Sort(le, s));
    }
  }
}

=== FILE: submit_race.dfy ===
/** `onSubmit` with its `await` made visible: pressing Submit sends the
    duplicate check, and the rest of the handler runs later, when the check's
    answer arrives. The handler reads `submittedForm` only when Submit is
    pressed and sets it only after the answer, so a second press while a check
    is outstanding passes the guard. The `guarded` flag selects a handler that
    also refuses a press while a check is outstanding. */
module SubmitRace {
  import opened Basics
  import opened BookingForm

  /** The form's flags and the submissions whose duplicate check is still
      awaiting its answer, oldest first. */
  datatype Pending = Pending(form: FormState, waiting: seq<Booking>)

  const Start := Pending(Initial, [])

  datatype Phase =
    | Press(values: FormValues)       // the user presses Submit
    | Answer(check: CheckOutcome)     // the oldest outstanding check answers
    | Dialog(open: bool)              // the duplicate dialog opens or closes

  datatype Stepped = Stepped(state: Pending, requests: seq<Request>)

  /** Pressing Submit: the guard of line 121, then the check request. */
  function PressSubmit(guarded: bool, st: Pending, values: FormValues): (r: Stepped)
    ensures st.form.submittedForm ==> r == Stepped(st, [])
    ensures guarded && |st.waiting| > 0 ==> r == Stepped(st, [])
    ensures StoreCount(r.requests) == 0
    ensures r.state.form == st.form
    // a press that fails the schema never reaches the handler
    ensures Validate(values).None? ==> r == Stepped(st, [])
    // an accepted press queues the booking and sends its duplicate check
    ensures Validate(values).Some? && !st.form.submittedForm && !(guarded && |st.waiting| > 0) ==>
              var data := Validate(values).value;
              r == Stepped(st.(waiting := st.waiting + [data]),
                           [CheckDuplicate(data.selectedStudent, data.selectedClass)])
  {
    match Validate(values)
    case None => Stepped(st, [])
    case Some(data) =>
      if st.form.submittedForm || (guarded && |st.waiting| > 0) then Stepped(st, [])
      else Stepped(st.(waiting := st.waiting + [data]),
                   [CheckDuplicate(data.selectedStudent, data.selectedClass)])
  }

  /** The handler resuming after its check answers: it does not look at
      `submittedForm` again. */
  function AnswerCheck(st: Pending, check: CheckOutcome): (r: Stepped)
    ensures |st.waiting| == 0 ==> r == Stepped(st, [])
    ensures StoreCount(r.requests) == (if |st.waiting| > 0 && check == CheckOk(false) then 1 else 0)
    ensures |st.waiting| > 0 ==> r.state.waiting == st.waiting[1..]
    ensures r.state.form.submittedForm <==> st.form.submittedForm || (|st.waiting| > 0 && check == CheckOk(false))
    // the store carries the answered submission's own booking, and nothing else is sent
    ensures |st.waiting| > 0 ==>
              r.requests == (if check == CheckOk(false) then [StoreBooking(st.waiting[0])] else [])
    // a reported duplicate opens the dialog; nothing else touches it
    ensures r.state.form.alreadyBooked <==> st.form.alreadyBooked || (|st.waiting| > 0 && check == CheckOk(true))
    // a failed check changes neither flag
    ensures check == CheckNotOk ==> r.state.form == st.form
  {
    if |st.waiting| == 0 then Stepped(st, [])
    else
      var data, rest := st.waiting[0], st.waiting[1..];
      match check
      case CheckNotOk => Stepped(st.(waiting := rest), [])
      case CheckOk(hasBooking) =>
        if hasBooking then Stepped(Pending(st.form.(alreadyBooked := true), rest), [])
        else Stepped(Pending(st.form.(submittedForm := true), rest), [StoreBooking(data)])
  }

  function Advance(guarded: bool, st: Pending, p: Phase): Stepped {
    match p
    case Press(values) => PressSubmit(guarded, st, values)
    case Answer(check) => AnswerCheck(st, check)
    case Dialog(open) => Stepped(st.(form := st.form.(alreadyBooked := open)), [])
  }

  function RunPhases(guarded: bool, st: Pending, ps: seq<Phase>): Stepped
    decreases |ps|
  {
    if |ps| == 0 then Stepped(st, [])
    else
      var first := Advance(guarded, st, ps[0]);
      var rest := RunPhases(guarded, first.state, ps[1..]);
      Stepped(rest.state, first.requests + rest.requests)
  }

  /** The two presses of the counterexample, unguarded: each asks the
      duplicate check and queues the booking. */
  lemma DoubleStorePresses(v: FormValues, b: Booking, ask: Request)
    requires v == FormValues(Some("class-1"), Some("student-1"), Some("user-1"))
    requires b == Booking("class-1", "student-1", "user-1")
    requires ask == CheckDuplicate("student-1", "class-1")
    ensures Advance(false, Start, Press(v)) == Stepped(Pending(Initial, [b]), [ask])
    ensures Advance(false, Pending(Initial, [b]), Press(v)) == Stepped(Pending(Initial, [b, b]), [ask])
  {
  }

  /** The two answers of the counterexample: each "no booking yet" stores
      the booking at the head of the queue. */
  lemma DoubleStoreAnswers(b: Booking, store: Request)
    requires store == StoreBooking(b)
    ensures Advance(false, Pending(Initial, [b, b]), Answer(CheckOk(false)))
         == Stepped(Pending(FormState(true, false), [b]), [store])
    ensures Advance(false, Pending(FormState(true, false), [b]), Answer(CheckOk(false)))
         == Stepped(Pending(FormState(true, false), []), [store])
  {
    assert [b, b][1..] == [b];
    assert [b][1..] == [];
  }

  /** The handler as written: two presses before the first answer, both
      checks answered "no booking yet", store the same booking twice. */
  lemma DoubleStoreAsWritten()
    ensures
      var v := FormValues(Some("class-1"), Some("student-1"), Some("user-1"));
      var run := RunPhases(false, Start, [Press(v), Press(v), Answer(CheckOk(false)), Answer(CheckOk(false))]);
      var b := Booking("class-1", "student-1", "user-1");
      var ask := CheckDuplicate("student-1", "class-1");
      && run.requests == [ask, ask, StoreBooking(b), StoreBooking(b)]
      && StoreCount(run.requests) == 2
  {
    var v := FormValues(Some("class-1"), Some("student-1"), Some("user-1"));
    var b := Booking("class-1", "student-1", "user-1");
    var ask := CheckDuplicate("student-1", "class-1");
    var ok := Answer(CheckOk(false));
    var store := StoreBooking(b);
    var s1 := Pending(Initial, [b]);
    var s2 := Pending(Initial, [b, b]);
    var s3 := Pending(FormState(true, false), [b]);
    var s4 := Pending(FormState(true, false), []);
    DoubleStorePresses(v, b, ask);
    DoubleStoreAnswers(b, store);
    var ps := [Press(v), Press(v), ok, ok];
    RunStep(false, s3, [ok], s4, [store], []);
    RunStep(false, s2, [ok, ok], s4, [store], [store]);
    RunStep(false, s1, [Press(v), ok, ok], s4, [ask], [store, store]);
    RunStep(false, Start, ps, s4, [ask], [ask, store, store]);
    StoreCountOfTwoChecksTwoStores(ask, store);
    assert [ask] + [ask, store, store] == [ask, ask, store, store];
  }

  /** Running a non-empty sequence of phases: the first one's requests, then the rest's. */
  lemma RunStep(guarded: bool, st: Pending, ps: seq<Phase>, last: Pending, firstRequests: seq<Request>, restRequests: seq<Request>)
    requires |ps| > 0
    requires Advance(guarded, st, ps[0]).requests == firstRequests
    requires RunPhases(guarded, Advance(guarded, st, ps[0]).state, ps[1..]) == Stepped(last, restRequests)
    ensures RunPhases(guarded, st, ps) == Stepped(last, firstRequests + restRequests)
  {
  }

  lemma StoreCountOfTwoChecksTwoStores(ask: Request, store: Request)
    requires ask.CheckDuplicate? && store.StoreBooking?
    ensures StoreCount([ask] + [ask, store, store]) == 2
  {
    var rs := [ask] + [ask, store, store];
    assert [ask][..0] == [];
    assert StoreCount([ask]) == 0;
    assert [ask, ask][..1] == [ask];
    assert StoreCount([ask, ask]) == 0;
    assert [ask, ask, store][..2] == [ask, ask];
    assert StoreCount([ask, ask, store]) == 1;
    assert rs[..3] == [ask, ask, store];
  }

  /** The guarded handler keeps at most one check outstanding, and none once
      the booking has been sent. */
  ghost predicate GuardInvariant(st: Pending) {
    |st.waiting| <= 1 && (st.form.submittedForm ==> |st.waiting| == 0)
  }

  lemma AdvanceGuarded(st: Pending, p: Phase)
    requires GuardInvariant(st)
    ensures var r := Advance(true, st, p);
            GuardInvariant(r.state)
            && StoreCount(r.requests) == (if !st.form.submittedForm && r.state.form.submittedForm then 1 else 0)
            && (st.form.submittedForm ==> r.state.form.submittedForm)
  {
  }

  lemma {:induction false} GuardedAccounting(st: Pending, ps: seq<Phase>)
    requires GuardInvariant(st)
    ensures var r := RunPhases(true, st, ps);
            StoreCount(r.requests) == (if !st.form.submittedForm && r.state.form.submittedForm then 1 else 0)
            && (st.form.submittedForm ==> r.state.form.submittedForm)
    decreases |ps|
  {
    if |ps| > 0 {
      var first := Advance(true, st, ps[0]);
      AdvanceGuarded(st, ps[0]);
      GuardedAccounting(first.state, ps[1..]);
      StoreCountAppend(first.requests, RunPhases(true, first.state, ps[1..]).requests);
    }
  }

  /** The guarded handler sends at most one store request per form instance,
      however presses and answers interleave. */
  lemma GuardedAtMostOneStore(ps: seq<Phase>)
    ensures StoreCount(RunPhases(true, Start, ps).requests) <= 1
    ensures StoreCount(RunPhases(true, Start, ps).requests) == 1 <==> RunPhases(true, Start, ps).state.form.submittedForm
  {
    GuardedAccounting(Start, ps);
  }

  /** With the guard, a submitted form sends nothing more, whatever
      presses and answers follow. */
  lemma {:induction false} GuardedSubmittedIsSilent(st: Pending, ps: seq<Phase>)
    requires GuardInvariant(st) && st.form.submittedForm
    ensures RunPhases(true, st, ps).requests == []
    ensures RunPhases(true, st, ps).state.form.submittedForm
    decreases |ps|
  {
    if |ps| > 0 {
      AdvanceGuarded(st, ps[0]);
      GuardedSubmittedIsSilent(Advance(true, st, ps[0]).state, ps[1..]);
    }
  }

  /** The duplicate check still awaiting its answer, as the request that sent it. */
  function OutstandingCheck(st: Pending): seq<Request> {
    if |st.waiting| > 0 then [CheckDuplicate(st.waiting[0].selectedStudent, st.waiting[0].selectedClass)] else []
  }

  lemma AdvanceGuardedFollows(st: Pending, p: Phase)
    requires GuardInvariant(st)
    ensures var r := Advance(true, st, p);
            && StoresFollowChecks(OutstandingCheck(st) + r.requests)
            && (|OutstandingCheck(r.state)| > 0 ==> OutstandingCheck(st) + r.requests == OutstandingCheck(r.state))
  {
  }

  /** One step of a run, as request lists: `pre` is the outstanding check
      before the step, `a` what the step sends, `post` the outstanding check
      after it and `rest` what the remaining run sends. */
  lemma FollowsCompose(pre: seq<Request>, a: seq<Request>, post: seq<Request>, rest: seq<Request>)
    requires StoresFollowChecks(pre + a)
    requires |post| > 0 ==> pre + a == post
    requires StoresFollowChecks(post + rest)
    ensures StoresFollowChecks(pre + (a + rest))
  {
    assert pre + (a + rest) == (pre + a) + rest;
    if |post| == 0 {
      assert post + rest == rest;
      StoresFollowChecksAppend(pre + a, rest);
    }
  }

  /** With the guard, every store request directly follows the duplicate check
      for the same student and class, however presses and answers interleave.
      The run starts from a state whose outstanding check was already sent. */
  lemma {:induction false} GuardedStoresFollowChecks(st: Pending, ps: seq<Phase>)
    requires GuardInvariant(st)
    ensures StoresFollowChecks(OutstandingCheck(st) + RunPhases(true, st, ps).requests)
    decreases |ps|
  {
    if |ps| > 0 {
      var first := Advance(true, st, ps[0]);
      AdvanceGuarded(st, ps[0]);
      AdvanceGuardedFollows(st, ps[0]);
      GuardedStoresFollowChecks(first.state, ps[1..]);
      FollowsCompose(OutstandingCheck(st), first.requests, OutstandingCheck(first.state),
                     RunPhases(true, first.state, ps[1..]).requests);
    } else {
      assert OutstandingCheck(st) + [] == OutstandingCheck(st);
    }
  }

  /** From a fresh form: every store request directly follows its check. */
  lemma GuardedRunStoresFollowChecks(ps: seq<Phase>)
    ensures StoresFollowChecks(RunPhases(true, Start, ps).requests)
  {
    GuardedStoresFollowChecks(Start, ps);
    assert OutstandingCheck(Start) + RunPhases(true, Start, ps).requests == RunPhases(true, Start, ps).requests;
  }
}
